=== FILE: README.md ===
# Wallet-address avatar scene, in Dafny

The repository serves one HTTP route, `GET /api?address=0x…&data=…`. It
turns an Ethereum-style address into a 1000 × 1000 picture, and the same
address and `data` always give the same picture. The picture has these layers:

- a dark background;
- a radial gradient in two colours taken from the address;
- 18 to 21 horizontal Bézier waves;
- a field of small stars, whose number and placement come from the optional
  `data` parameter.

A missing or malformed address gets a JSON 400 reply instead.

The model follows `src/app/api/route.tsx`:

| file | module | what it holds |
|---|---|---|
| `wrappers.dfy` | `Wrappers` | `Option` |
| `js_number.dfy` | `JsNumber` | JavaScript number primitives the route uses |
| `address.dfy` | `Address` | the address check and the address seed |
| `palette.dfy` | `Palette` | `generateColorsFromAddress` |
| `waves.dfy` | `Waves` | `generateWavePattern` |
| `stars.dfy` | `Stars` | `generateStars` |
| `route.dfy` | `Route` | the handler: the 400 path and the layer stack |

`JsNumber` covers:

- `%`, which truncates toward zero;
- `parseInt`, with `None` standing for `NaN`;
- `String.prototype.slice`, which clamps its indices.

The address check `/^0x[a-fA-F0-9]{40}$/` is given in two forms. One is a
declarative predicate. The other is a left-to-right matcher loop, proved
equivalent to the predicate.

The seed is `parseInt(address.slice(2, 10), 16)`: the first eight hex
digits read as a number below 2^32. The model proves this. It also proves
that two addresses share a seed exactly when those eight digits agree,
ignoring case.

Wave heights `50 + i * 900 / (count - 1)` are exact rationals (`real`), and
so are the control-point heights `cy1` and `cy2` derived from them. The
horizontal control points `cx1`, `cx2` and every star coordinate are whole
numbers.

The palette follows the code: the address `0x12345678…` has seed 305419896,
primary hue 216 and secondary hue 276.

## Model

| member | source | states |
|---|---|---|
| Address.IsValidAddress | src/app/api/route.tsx:63 | The address pattern: a lower-case `0x` followed by exactly 40 characters from `[a-fA-F0-9]`. |
| Address.MatchesAddressPattern | src/app/api/route.tsx:63 | The scan of the address accepts exactly when the string is `0x` followed by exactly 40 hex digits of either case, 42 characters in all. |
| Address.StepStateAfter | src/app/api/route.tsx:63 | One step of the matcher on character `c` lands in the state that the closed-form description assigns to the longer prefix. This is the invariant the matcher loop keeps. |
| Address.AddressSeed | src/app/api/route.tsx:14 | For a valid address, `parseInt` of characters 2..9 in radix 16 is a number, never `NaN`, and it is below 2^32. |
| Address.HexRoundTrip | src/app/api/route.tsx:14 | Writing a number below 16^w as `w` hex digits and reading it back gives the number again. |
| Address.HexRoundTripBack | src/app/api/route.tsx:14 | Reading hex digits as a number and writing it back at the same width gives the digits in lower case. |
| Address.SeedIdentifiesDigits | src/app/api/route.tsx:14 | Two valid addresses have the same seed exactly when their first eight hex digits are equal, ignoring case. |
| JsNumber.JsRem | src/app/api/route.tsx:15 | JavaScript `%` takes the sign of the dividend, its magnitude is below the divisor, and it satisfies `a == b * q + r` with a truncated quotient. |
| JsNumber.JsRemOdd | src/app/api/route.tsx:48-51 | Negating the dividend negates JavaScript's remainder, unlike the floored modulus. |
| JsNumber.JsRemNatural | src/app/api/route.tsx:15 | For a non-negative dividend, JavaScript `%` agrees with the mathematical modulus. |
| JsNumber.TrimStart | src/app/api/route.tsx:45 | `parseInt` first drops a prefix made only of JavaScript whitespace, and the character it stops at is not whitespace. |
| JsNumber.DigitPrefixLength | src/app/api/route.tsx:45 | `parseInt` reads the longest run of digits valid in the radix: every character before the stop is a digit and the stop is not. |
| JsNumber.DigitsValueBound | src/app/api/route.tsx:14 | `n` digits in radix `b` denote a value below `b^n`. |
| JsNumber.ParseIntOfHexDigits | src/app/api/route.tsx:14 | A non-empty string made only of hex digits parses in radix 16 to its positional value. |
| JsNumber.ParseIntEmpty | src/app/api/route.tsx:44 | `parseInt` of the empty string is `NaN` in every radix. |
| JsNumber.ParseIntDecimalRoundTrip | src/app/api/route.tsx:45 | `parseInt` with no radix inverts decimal rendering: every integer written in decimal, with a `-` when negative, parses back to itself. |
| JsNumber.ParseInt | src/app/api/route.tsx:14 | `parseInt` is `NaN` for a radix outside 2..36 (0 standing for an omitted radix), and a negative result needs a `-` where the leading white space ends. |
| JsNumber.ParseIntOfPrefixedHex | src/app/api/route.tsx:45 | With the radix omitted, `0x` followed by hex digits parses to the value of those digits. |
| JsNumber.ParseIntBound | src/app/api/route.tsx:44 | With an explicit radix, `parseInt` of `n` characters is below radix^n, and a negative result is above -radix^(n-1). |
| JsNumber.Slice | src/app/api/route.tsx:14 | `slice(start, end)` clamps both ends to the length, is empty when start passes end, and otherwise copies the characters from `start` on. |
| Palette.ColorsFromSeed | src/app/api/route.tsx:15-17 | The primary hue is the seed reduced into [0, 360). The secondary hue is 60 degrees further round the wheel, so the two always differ. Saturation and lightness are 70%/50% and 80%/60%. |
| Palette.ColorsFromAddress | src/app/api/route.tsx:13-19 | A valid address's primary hue is its seed mod 360, and its two colours are distinct. |
| Palette.PaletteDeterminedByHue | src/app/api/route.tsx:15-17 | Two seeds give the same palette exactly when they agree mod 360. |
| Waves.WaveCount | src/app/api/route.tsx:25 | The number of waves is between 18 and 21 and is congruent to `seed + 2` mod 4. |
| Waves.WaveY | src/app/api/route.tsx:28 | Every wave index below the count is placed between y = 50 and y = 950. |
| Waves.WaveOffset | src/app/api/route.tsx:29 | The per-wave offset `(seed + i * 41) % 300` is below 300. |
| Waves.WaveAt | src/app/api/route.tsx:28-36 | Each wave is level, with `y1 == y2`. Its first control point is in x [150, 349] and its second in x [661, 840]. Its control points sit at mirror heights about the wave's line, within 75 of it. |
| Waves.WavePattern | src/app/api/route.tsx:22-39 | One wave per index up to the count, every wave level and inside [50, 950] vertically. |
| Waves.WaveEndpoints | src/app/api/route.tsx:28 | The first wave is at y = 50 and the last at y = 950. |
| Waves.WavesStrictlyDescend | src/app/api/route.tsx:27-28 | A wave with a larger index is strictly lower on the canvas. |
| Waves.WavesEvenlySpaced | src/app/api/route.tsx:28 | Neighbouring waves are exactly 900 / (count - 1) apart. |
| Waves.WaveControlPoints | src/app/api/route.tsx:32-35 | For every wave of a pattern, the control points are in their horizontal bands and mirror each other about the wave's line. |
| Stars.StarSeedAsWritten | src/app/api/route.tsx:44 | Without `data`, or with empty `data`, the star seed is 0. A numeric seed lies strictly between -16^7 and 16^8, since the slice has at most eight characters. It is negative only when the slice starts with `-` after white space. |
| Stars.StarSeed | src/app/api/route.tsx:44 | The corrected seed equals the source's seed whenever that is a number, and is 0 where the source's seed is `NaN`. It lies strictly between -16^7 and 16^8 and is negative only when the slice starts with `-` after white space. |
| Stars.StarCount | src/app/api/route.tsx:45 | When `data` is present and `parseInt(data)` is a number, the count is that number. Otherwise it is the default 5. |
| Stars.StarCountFromHex | src/app/api/route.tsx:45 | A hex payload `0x` followed by `w` digits for any `n < 16^w` draws exactly `n` stars. |
| Stars.StarSeedOfHexDigits | src/app/api/route.tsx:44 | When characters 2 to 9 of `data` are hex digits, the star seed is their radix-16 value. |
| Stars.StarSeedOfAddress | src/app/api/route.tsx:14-44 | A valid address given as `data` seeds the stars with that address's seed. |
| Stars.StarAt | src/app/api/route.tsx:48-52 | With a non-negative seed a star lies in [50, 949] on both axes, is sized 5 to 9, and has a hue in [0, 360). Every star has saturation 80% and lightness 70%. |
| Stars.GenerateStars | src/app/api/route.tsx:45-47 | Exactly `count` stars are drawn when the count is non-negative, and none when it is negative. |
| Stars.StarsWithoutData | src/app/api/route.tsx:44-53 | Without `data` there are five stars. The first is at (50, 50) with size 5 and hue 0, and each later one is 97 to the right and 53 lower. |
| Stars.StarCountFromNumber | src/app/api/route.tsx:45 | `data` holding a decimal integer `n` draws `n` stars when `n` is positive and none otherwise. |
| Stars.StarsOnCanvas | src/app/api/route.tsx:47-54 | With a non-negative seed every star of the field is on the canvas inside the 50-pixel margin, sized 5 to 9, coloured hsl(h, 80%, 70%). |
| Stars.DataStarsOnCanvas | src/app/api/route.tsx:44-53 | For every `data` whose slice `data.slice(2, 10)` does not start with `-` after leading white space, every star drawn is inside [50, 949] on both axes and sized 5 to 9. |
| Stars.StarSizesExactly | src/app/api/route.tsx:50 | With five or more stars the set of sizes is exactly {5, …, 9}. The source comment's "5-10" is never reached at 10. |
| Stars.NegativeSeedLeavesCanvas | src/app/api/route.tsx:44-48 | `data = "0x-1"` gives seed -1 and the default count, and the first star lands at x = 49, outside the margin. |
| Stars.NumericDataGivesNaNSeed | src/app/api/route.tsx:44-45 | As written, `data = "10"` draws ten stars from a `NaN` seed. |
| Stars.NumericDataStarsOnCanvas | src/app/api/route.tsx:44-54 | With the corrected seed, `data = "10"` draws ten stars, all on the canvas. |
| Route.WaveStroke | src/app/api/route.tsx:103 | A wave's stroke is one of the two palette colours, and it is the primary exactly when its index is even (or the colours coincide). |
| Route.StrokeWidth | src/app/api/route.tsx:104 | Every stroke width is between 10 and 14. |
| Route.GradientLayer | src/app/api/route.tsx:92-97 | The gradient runs from the secondary colour at offset 0% to the primary at 100%, and is more opaque at the centre than at the rim. |
| Route.WaveLayers | src/app/api/route.tsx:99-107 | One stroke per wave, in order: each draws its wave in a palette colour, 10 to 14 wide, at opacity 0.6. |
| Route.StarLayers | src/app/api/route.tsx:110-117 | One path per star, in order, at fill opacity 0.9. A star sized 5 to 9 is drawn at scale 0.5 to 0.9. |
| Route.ComposeScene | src/app/api/route.tsx:91-118 | The drawing has one layer for the background, one for the gradient, one per wave and one per star. |
| Route.Handle | src/app/api/route.tsx:58-72 | The reply is the JSON error exactly when the address is missing or fails the pattern. The error has status 400 and the message "valid address is required". Otherwise the reply is a 1000 × 1000 image. |
| Route.LayerStack | src/app/api/route.tsx:79-117 | The layers are the dark background, then the gradient (secondary at 0.4 in the centre, primary at 0.1 at the rim), then wave `i` at position `2 + i`, then the stars in order. |
| Route.LayersPaintedInOrder | src/app/api/route.tsx:91-118 | Layer kinds never decrease along the stack, so every star is painted over every wave. The background and gradient occur once each, at the bottom. |
| Route.WaveStrokesAlternate | src/app/api/route.tsx:99-103 | With distinct palette colours, wave layer `i` is stroked in the primary colour exactly when `i` is even. |
| Route.NeighbouringStrokesDiffer | src/app/api/route.tsx:103 | With distinct palette colours, adjacent wave layers never share a stroke colour. |
| Route.StrokeWidthsExactly | src/app/api/route.tsx:104 | With five or more waves the stroke widths used are exactly {10, …, 14}. |
| Route.ValidAddressScene | src/app/api/route.tsx:67-72 | A valid address always yields an image. It is drawn from its own palette, which has two distinct colours, and from 18 to 21 waves. |
| Route.DataOnlyMovesStars | src/app/api/route.tsx:68-70 | For a fixed address, `data` changes nothing below the stars: the background, gradient and wave layers are identical. |
| Route.ExampleAddress | src/app/api/route.tsx:14-25 | An address beginning `0x12345678` has seed 305419896, primary hsl(216, 70%, 50%), secondary hsl(276, 80%, 60%) and 18 waves. |

## Left out

- Rendering is left out: `ImageResponse`, the JSX `div` wrapper and the SVG markup. The model keeps the layer list and each layer's parameters instead of the markup.
- The wave `d` attribute string and the star outline path are left out. A wave is kept as its six numbers. A star keeps its position, scale and fill.
- Query parsing (`URLSearchParams`, `Object.fromEntries`) is left out. The handler receives `address` and `data` as optional strings, and the last duplicate key winning is not modelled.
- The `try`/`catch` 500 path and `console.error` are left out. None of the modelled computations throw.
- The edge-runtime flag and `next.config.mjs` are deployment settings.
- Floating-point rounding is left out. Wave heights are exact rationals, and other values are integers. Double precision makes `parseInt` inexact above 2^53, which the address seed (below 2^32) never reaches.
- JsNumber.ParseInt: a large `data` count above 2^53 is not rounded as JavaScript would round it.
- JsNumber.ParseInt: only what the route needs is modelled. Radix 0 means omitted: decimal, or hex after `0x`/`0X`. The integer radices are 2 to 36. JavaScript's conversion of a non-integer or out-of-range radix argument is not modelled.
- A `NaN` star seed is left out. The as-written seed is `None`, and the stars are drawn from the corrected seed; see "## Findings".
- Route.Handle: for a huge count the source never answers, and the model still returns an image with that many stars. For a count above 2^53, `i++` stalls at 2^53, which stays below the count, so the loop never ends. A `data` whose value is 2^1024 - 2^970 (about 1.8 × 10^308) or more parses to `Infinity`, which no `i` reaches. Far smaller counts already exhaust memory. The model has unbounded integers and no memory limit.
- JsNumber.Slice: indices count characters (Unicode scalar values), not UTF-16 code units as in JavaScript. For `data` holding a character outside the Basic Multilingual Plane before index 10, the slice differs. With `data = "😀ff"`, JavaScript slices `"ff"` (seed 255) and the model slices `"f"` (seed 15).
- Stars.StarAt: canvas, size and hue bounds are stated only for a non-negative seed. A negative seed, such as from `data = "0x-1"`, gives negative remainders, as Stars.NegativeSeedLeavesCanvas shows.
- Other palettes, vertical waves and other scene layouts have no code in the repository, so they are not part of this model.

## Findings

| source | as written | input that shows it | evidently intended | confidence | as-written member | corrected member |
|---|---|---|---|---|---|---|
| src/app/api/route.tsx:44 | The seed is `data ? parseInt(data.slice(2, 10), 16) : 0`. The `0` only covers absent or empty `data`. A `data` whose characters from index 2 hold no hex digit after optional white space, one sign and an optional `0x` gives `NaN`, and with it every star coordinate, size and hue is `NaN`. | `data = "10"`. This is a plain star count, as line 45's comment suggests. `"10".slice(2, 10)` is empty, so the seed is `NaN` while line 45 still asks for ten stars. | The `: 0` default of line 44 shows that a seed of 0 is meant when `data` gives none, and line 45's comment shows that a plain number is meant as the star count. So the seed falls back to 0 whenever the parse gives `NaN`, and the ten stars land on the canvas. | medium, not executed | Stars.NumericDataGivesNaNSeed | Stars.NumericDataStarsOnCanvas |

=== FILE: address.dfy ===
/** The address check of the request handler and the seed the generators read
    out of a valid address (src/app/api/route.tsx). */
module Address {
  import opened Wrappers
  import opened JsNumber

  /** Number of hex digits after the `0x` prefix. */
  const HexDigits: nat := 40

  /** The character class `[a-fA-F0-9]`. */
  predicate IsHexDigit(c: char) {
    '0' <= c <= '9' || 'a' <= c <= 'f' || 'A' <= c <= 'F'
  }

  /** A string matches `^0x[a-fA-F0-9]{40}$`: a lower-case `0x` followed by
      exactly forty hex digits of either case. */
  predicate IsValidAddress(s: string) {
    && |s| == 2 + HexDigits
    && s[0] == '0' && s[1] == 'x'
    && forall i :: 2 <= i < |s| ==> IsHexDigit(s[i])
  }

  lemma HexDigitIsRadix16Digit(c: char)
    ensures IsHexDigit(c) <==> IsDigitIn(c, 16)
  {
  }

  lemma AllRadix16Digits(s: string)
    requires forall i :: 0 <= i < |s| ==> IsHexDigit(s[i])
    ensures forall i :: 0 <= i < |s| ==> IsDigitIn(s[i], 16)
  {
    forall i | 0 <= i < |s|
      ensures IsDigitIn(s[i], 16)
    {
      HexDigitIsRadix16Digit(s[i]);
    }
  }

  // ---------------------------------------------------------------------------
  // The pattern as an automaton

  /** States of a left-to-right matcher for the address pattern. */
  datatype MatchState = ExpectZero | ExpectX | InHex(digits: nat) | Dead

  /** One transition of the matcher. */
  function Step(st: MatchState, c: char): MatchState {
    match st
    case ExpectZero => if c == '0' then ExpectX else Dead
    case ExpectX => if c == 'x' then InHex(0) else Dead
    case InHex(k) => if k < HexDigits && IsHexDigit(c) then InHex(k + 1) else Dead
    case Dead => Dead
  }

  /** The state the matcher is in after reading `p`, in closed form. */
  function StateAfter(p: string): MatchState {
    if |p| == 0 then ExpectZero
    else if p[0] != '0' then Dead
    else if |p| == 1 then ExpectX
    else if p[1] != 'x' then Dead
    else if |p| - 2 <= HexDigits && forall i :: 2 <= i < |p| ==> IsHexDigit(p[i]) then InHex(|p| - 2)
    else Dead
  }

  lemma StepStateAfter(p: string, c: char)
    ensures Step(StateAfter(p), c) == StateAfter(p + [c])
  {
    var q := p + [c];
    assert forall i :: 0 <= i < |p| ==> q[i] == p[i];
    if |p| >= 2 && p[0] == '0' && p[1] == 'x' {
      if |p| - 2 <= HexDigits && forall i :: 2 <= i < |p| ==> IsHexDigit(p[i]) {
        if |p| - 2 < HexDigits && IsHexDigit(c) {
          assert forall i :: 2 <= i < |q| ==> IsHexDigit(q[i]);
        } else if |p| - 2 < HexDigits {
          assert !IsHexDigit(q[|p|]);
        }
      } else {
        assert StateAfter(q) == Dead;
      }
    }
  }

  /** Runs the matcher over `s`, the way the regular expression is tested in
      the request handler, and accepts exactly the valid addresses. */
  method MatchesAddressPattern(s: string) returns (ok: bool)
    ensures ok <==> IsValidAddress(s)
  {
    var st := ExpectZero;
    var i := 0;
    while i < |s|
      invariant 0 <= i <= |s|
      invariant st == StateAfter(s[..i])
    {
      StepStateAfter(s[..i], s[i]);
      assert s[..i + 1] == s[..i] + [s[i]];
      st := Step(st, s[i]);
      i := i + 1;
    }
    assert s[..|s|] == s;
    ok := st == InHex(HexDigits);
  }

  // ---------------------------------------------------------------------------
  // Seed

  /** Exclusive bound of an eight-hex-digit seed. */
  const SeedBound: nat := 0x1_0000_0000

  /** The seed: `parseInt(address.slice(2, 10), 16)`, the first eight hex
      digits after the prefix read as one base-16 number. */
  function AddressSeed(a: string): (seed: nat)
    requires IsValidAddress(a)
    ensures seed < SeedBound
    ensures ParseInt(Slice(a, 2, 10), 16) == Some(seed)
  {
    var digits := a[2..10];
    AllRadix16Digits(digits);
    DigitsValueBound(digits, 16);
    assert Pow(16, 8) == SeedBound;
    assert Slice(a, 2, 10) == digits;
    ParseIntOfHexDigits(digits);
    DigitsValue(digits, 16)
  }

  // ---------------------------------------------------------------------------
  // What the seed retains of the address

  function HexChar(d: nat): (c: char)
    requires d < 16
    ensures IsHexDigit(c) && DigitValue(c) == d
  {
    if d < 10 then ('0' as int + d) as char else ('a' as int + d - 10) as char
  }

  function ToLowerHex(c: char): char {
    if 'A' <= c <= 'F' then (c as int - 'A' as int + 'a' as int) as char else c
  }

  /** `s` with its upper-case hex letters lowered. */
  function LowerHex(s: string): (t: string)
    ensures |t| == |s|
    ensures forall i :: 0 <= i < |s| ==> t[i] == ToLowerHex(s[i])
  {
    seq(|s|, i requires 0 <= i < |s| => ToLowerHex(s[i]))
  }

  /** The `width`-digit lower-case hex rendering of `n` (mod 16^width). */
  function ToHex(n: nat, width: nat): (s: string)
    ensures |s| == width
    ensures forall i :: 0 <= i < |s| ==> IsHexDigit(s[i]) && IsDigitIn(s[i], 16)
  {
    if width == 0 then [] else ToHex(n / 16, width - 1) + [HexChar(n % 16)]
  }

  lemma QuotientBound(n: nat, p: nat)
    requires n < p * 16
    ensures n / 16 < p
  {
  }

  /** Reading back a rendering gives the number: digits and value agree. */
  lemma {:induction false} HexRoundTrip(n: nat, width: nat)
    requires n < Pow(16, width)
    ensures DigitsValue(ToHex(n, width), 16) == n
  {
    if width > 0 {
      var s := ToHex(n, width);
      QuotientBound(n, Pow(16, width - 1));
      HexRoundTrip(n / 16, width - 1);
      assert s[..|s| - 1] == ToHex(n / 16, width - 1);
    }
  }

  /** Rendering the value of a digit string gives the string back, lowered. */
  lemma {:induction false} HexRoundTripBack(s: string)
    requires forall i :: 0 <= i < |s| ==> IsHexDigit(s[i])
    ensures forall i :: 0 <= i < |s| ==> IsDigitIn(s[i], 16)
    ensures ToHex(DigitsValue(s, 16), |s|) == LowerHex(s)
  {
    AllRadix16Digits(s);
    if |s| > 0 {
      var init := s[..|s| - 1];
      var c := s[|s| - 1];
      var v := DigitsValue(s, 16);
      assert v == DigitsValue(init, 16) * 16 + DigitValue(c);
      assert v / 16 == DigitsValue(init, 16) && v % 16 == DigitValue(c);
      HexRoundTripBack(init);
      assert HexChar(DigitValue(c)) == ToLowerHex(c);
      assert LowerHex(s) == LowerHex(init) + [ToLowerHex(c)];
    }
  }

  /** Two valid addresses share a seed exactly when their first eight hex
      digits agree up to letter case: the seed keeps those digits and nothing
      else. */
  lemma SeedIdentifiesDigits(a: string, b: string)
    requires IsValidAddress(a) && IsValidAddress(b)
    ensures AddressSeed(a) == AddressSeed(b) <==> LowerHex(a[2..10]) == LowerHex(b[2..10])
  {
    var da, db := a[2..10], b[2..10];
    HexRoundTripBack(da);
    HexRoundTripBack(db);
    assert Pow(16, 8) == SeedBound;
    HexRoundTrip(AddressSeed(a), 8);
    HexRoundTrip(AddressSeed(b), 8);
  }
}

=== FILE: js_number.dfy ===
/** The JavaScript semantics the generator depends on: the truncating
    remainder operator `%`, the global `parseInt`, and `String.prototype.slice`
    on the strings `parseInt` reads. */
module JsNumber {
  import opened Wrappers

  /** JavaScript integer division truncated toward zero (what `Math.trunc(a / b)`
      gives), the quotient that goes with JavaScript's `%`. */
  function JsQuot(a: int, b: int): (q: int)
    requires b > 0
    ensures a >= 0 ==> q >= 0
    ensures a < 0 ==> q <= 0
  {
    if a >= 0 then a / b else -((-a) / b)
  }

  /** JavaScript `a % b` for integer operands and a positive divisor: the
      quotient is truncated toward zero, so the remainder takes the sign of
      the dividend (Dafny's own `%` is Euclidean and never negative). */
  function JsRem(a: int, b: int): (r: int)
    requires b > 0
    ensures a >= 0 ==> 0 <= r < b
    ensures a < 0 ==> -b < r <= 0
    ensures a == b * JsQuot(a, b) + r
  {
    if a >= 0 then a % b else -((-a) % b)
  }

  /** On a non-negative dividend JavaScript's remainder and Dafny's agree. */
  lemma JsRemNatural(a: int, b: int)
    requires a >= 0 && b > 0
    ensures JsRem(a, b) == a % b
  {
  }

  /** Truncation makes the remainder an odd function of the dividend, which
      is exactly where it departs from the Euclidean `%`. */
  lemma JsRemOdd(a: int, b: int)
    requires b > 0
    ensures JsRem(-a, b) == -JsRem(a, b)
  {
  }

  // ---------------------------------------------------------------------------
  // parseInt

  function Pow(b: nat, e: nat): (p: nat)
    ensures b >= 1 ==> p >= 1
  {
    if e == 0 then 1 else Pow(b, e - 1) * b
  }

  /** The characters ECMAScript's StrWhiteSpaceChar admits: WhiteSpace (TAB,
      VT, FF, ZWNBSP and the Zs space separators) and LineTerminator (LF, CR,
      LS, PS). */
  const JsWhitespace: set<char> := {
    '\t', '\U{000B}', '\U{000C}', '\U{FEFF}',
    ' ', '\U{00A0}', '\U{1680}',
    '\U{2000}', '\U{2001}', '\U{2002}', '\U{2003}', '\U{2004}', '\U{2005}',
    '\U{2006}', '\U{2007}', '\U{2008}', '\U{2009}', '\U{200A}',
    '\U{202F}', '\U{205F}', '\U{3000}',
    '\n', '\r', '\U{2028}', '\U{2029}'
  }

  predicate IsJsWhitespace(c: char) {
    c in JsWhitespace
  }

  /** `parseInt` first drops leading white space. */
  function TrimStart(s: string): (t: string)
    ensures |t| <= |s| && t == s[|s| - |t|..]
    ensures forall i :: 0 <= i < |s| - |t| ==> IsJsWhitespace(s[i])
    ensures t == [] || !IsJsWhitespace(t[0])
  {
    if |s| > 0 && IsJsWhitespace(s[0]) then
      var t := TrimStart(s[1..]);
      assert s[1..][|s| - 1 - |t|..] == s[|s| - |t|..];
      assert forall i :: 1 <= i < |s| - |t| ==> s[i] == s[1..][i - 1];
      t
    else
      s
  }

  /** The value of a digit character in radix 36; 36 for anything else, so
      that `IsDigitIn(c, r)` is false for every radix `r <= 36`. */
  function DigitValue(c: char): (d: nat)
    ensures d <= 36
  {
    if '0' <= c <= '9' then c as nat - '0' as nat
    else if 'a' <= c <= 'z' then c as nat - 'a' as nat + 10
    else if 'A' <= c <= 'Z' then c as nat - 'A' as nat + 10
    else 36
  }

  predicate IsDigitIn(c: char, radix: nat) {
    DigitValue(c) < radix
  }

  /** Length of the longest prefix of `s` made of radix-`radix` digits:
      `parseInt` stops at the first character that is not one. */
  function DigitPrefixLength(s: string, radix: nat): (n: nat)
    ensures n <= |s|
    ensures forall i :: 0 <= i < n ==> IsDigitIn(s[i], radix)
    ensures n == |s| || !IsDigitIn(s[n], radix)
  {
    if |s| > 0 && IsDigitIn(s[0], radix) then 1 + DigitPrefixLength(s[1..], radix) else 0
  }

  lemma DigitBoundStep(hi: nat, d: nat, radix: nat, p: nat)
    requires hi < p && d < radix
    ensures 0 <= hi * radix + d < p * radix
  {
    assert hi * radix <= (p - 1) * radix by {
      assert hi <= p - 1;
    }
  }

  /** The big-endian value of a string of digits. */
  function DigitsValue(s: string, radix: nat): (v: nat)
    requires forall i :: 0 <= i < |s| ==> IsDigitIn(s[i], radix)
  {
    if |s| == 0 then 0
    else Shift(DigitsValue(s[..|s| - 1], radix), radix, DigitValue(s[|s| - 1]))
  }

  /** Appends digit `d` to a number written in radix `radix`. */
  function Shift(hi: nat, radix: nat, d: nat): nat {
    hi * radix + d
  }

  /** `n` digits of radix `r` are worth less than `r^n`. */
  lemma {:induction false} DigitsValueBound(s: string, radix: nat)
    requires forall i :: 0 <= i < |s| ==> IsDigitIn(s[i], radix)
    ensures DigitsValue(s, radix) < Pow(radix, |s|)
  {
    if |s| > 0 {
      var init := s[..|s| - 1];
      DigitsValueBound(init, radix);
      assert IsDigitIn(s[|s| - 1], radix);
      DigitBoundStep(DigitsValue(init, radix), DigitValue(s[|s| - 1]), radix, Pow(radix, |init|));
    }
  }

  predicate HasHexPrefix(s: string) {
    |s| >= 2 && s[0] == '0' && (s[1] == 'x' || s[1] == 'X')
  }

  /** The unsigned part of `parseInt`, after white space and sign: strip a
      `0x`/`0X` prefix when the radix is omitted (`0`) or 16 -- an omitted
      radix then becomes 16, otherwise 10 -- and read the longest run of
      digits; no digit at all gives `NaN` (`None`). */
  function ParseMagnitude(u: string, radix: nat): (r: Option<int>)
    requires radix == 0 || 2 <= radix <= 36
    ensures r.Some? ==> r.value >= 0
  {
    var stripped := (radix == 0 || radix == 16) && HasHexPrefix(u);
    var base := if stripped then 16 else if radix == 0 then 10 else radix;
    var body := if stripped then u[2..] else u;
    var n := DigitPrefixLength(body, base);
    if n == 0 then None else Some(DigitsValue(body[..n], base))
  }

  /** JavaScript `parseInt(s, radix)` on the integers, with `radix == 0`
      standing for an omitted radix and `None` for `NaN`: skip white space,
      take one optional sign, then read the magnitude. */
  function ParseInt(s: string, radix: nat): (r: Option<int>)
    ensures r.Some? ==> radix == 0 || 2 <= radix <= 36
    ensures r.Some? && r.value < 0 ==> |TrimStart(s)| > 0 && TrimStart(s)[0] == '-'
  {
    if radix != 0 && (radix < 2 || radix > 36) then None
    else ParseSigned(TrimStart(s), radix)
  }

  /** One optional sign, then the magnitude. */
  function ParseSigned(t: string, radix: nat): Option<int>
    requires radix == 0 || 2 <= radix <= 36
  {
    if |t| > 0 && t[0] == '-' then Negate(ParseMagnitude(t[1..], radix))
    else if |t| > 0 && t[0] == '+' then ParseMagnitude(t[1..], radix)
    else ParseMagnitude(t, radix)
  }

  /** Unary minus, which keeps `NaN`. */
  function Negate(r: Option<int>): Option<int> {
    match r
    case None => None
    case Some(m) => Some(-m)
  }

  /** Powers of a base of at least 1 grow with the exponent. */
  lemma {:induction false} PowMonotone(b: nat, e1: nat, e2: nat)
    requires b >= 1 && e1 <= e2
    ensures Pow(b, e1) <= Pow(b, e2)
  {
    if e1 < e2 {
      PowMonotone(b, e1, e2 - 1);
      assert Pow(b, e2 - 1) * b >= Pow(b, e2 - 1);
    }
  }

  /** With an explicit radix, the magnitude read from `u` is below
      `radix^|u|`: the digits read are a prefix of `u`, or of `u` without its
      `0x`. */
  lemma MagnitudeBound(u: string, radix: nat)
    requires 2 <= radix <= 36
    ensures ParseMagnitude(u, radix).Some? ==> ParseMagnitude(u, radix).value < Pow(radix, |u|)
  {
    var stripped := radix == 16 && HasHexPrefix(u);
    var body := if stripped then u[2..] else u;
    var n := DigitPrefixLength(body, radix);
    if n > 0 {
      DigitsValueBound(body[..n], radix);
      PowMonotone(radix, n, |u|);
    }
  }

  /** With an explicit radix, `parseInt(s, radix)` is below `radix^|s|`, and a
      negative result spends one character of `s` on its `-`, so its
      magnitude is below `radix^(|s| - 1)`. */
  lemma ParseIntBound(s: string, radix: nat)
    requires 2 <= radix <= 36
    ensures ParseInt(s, radix).Some? ==> ParseInt(s, radix).value < Pow(radix, |s|)
    ensures ParseInt(s, radix).Some? && ParseInt(s, radix).value < 0 ==>
              |s| > 0 && -ParseInt(s, radix).value < Pow(radix, |s| - 1)
  {
    var t := TrimStart(s);
    var r := ParseSigned(t, radix);
    assert ParseInt(s, radix) == r;
    SignedBound(t, radix);
    PowMonotone(radix, |t|, |s|);
    if r.Some? && r.value < 0 {
      assert |t| > 0;
      PowMonotone(radix, |t| - 1, |s| - 1);
    }
  }

  /** `ParseIntBound` for text that starts where the white space ends. */
  lemma SignedBound(t: string, radix: nat)
    requires 2 <= radix <= 36
    ensures ParseSigned(t, radix).Some? ==> ParseSigned(t, radix).value < Pow(radix, |t|)
    ensures ParseSigned(t, radix).Some? && ParseSigned(t, radix).value < 0 ==>
              |t| > 0 && -ParseSigned(t, radix).value < Pow(radix, |t| - 1)
  {
    if |t| > 0 && (t[0] == '-' || t[0] == '+') {
      MagnitudeBound(t[1..], radix);
      PowMonotone(radix, |t| - 1, |t|);
    } else {
      MagnitudeBound(t, radix);
    }
  }

  lemma DigitIsNotSpaceOrSign(c: char, radix: nat)
    requires IsDigitIn(c, radix) && radix <= 36
    ensures !IsJsWhitespace(c) && c != '-' && c != '+'
  {
  }

  lemma TrimStartKeeps(s: string)
    requires |s| > 0 && !IsJsWhitespace(s[0])
    ensures TrimStart(s) == s
  {
  }

  lemma {:induction false} DigitPrefixOfDigits(s: string, radix: nat)
    requires forall i :: 0 <= i < |s| ==> IsDigitIn(s[i], radix)
    ensures DigitPrefixLength(s, radix) == |s|
  {
    if |s| > 0 {
      DigitPrefixOfDigits(s[1..], radix);
    }
  }

  /** A non-empty run of digits of a radix up to 16, where `x` is never a
      digit and so no `0x` prefix is stripped, reads as its value. */
  lemma ParseMagnitudeOfDigits(s: string, radix: nat, base: nat)
    requires radix == 0 || 2 <= radix <= 36
    requires base == if radix == 0 then 10 else radix
    requires 2 <= base <= 16 && |s| > 0
    requires forall i :: 0 <= i < |s| ==> IsDigitIn(s[i], base)
    ensures ParseMagnitude(s, radix) == Some(DigitsValue(s, base) as int)
  {
    if |s| >= 2 {
      assert IsDigitIn(s[1], base);
    }
    assert !HasHexPrefix(s);
    DigitPrefixOfDigits(s, base);
    assert s[..|s|] == s;
  }

  /** A non-empty string made only of radix-16 digits parses, in radix 16, to
      its digit value: hex digits are neither white space nor a sign, and the
      letter `x` is not a hex digit, so no prefix is stripped. */
  lemma ParseIntOfHexDigits(s: string)
    requires |s| > 0
    requires forall i :: 0 <= i < |s| ==> IsDigitIn(s[i], 16)
    ensures ParseInt(s, 16) == Some(DigitsValue(s, 16) as int)
  {
    DigitIsNotSpaceOrSign(s[0], 16);
    TrimStartKeeps(s);
    ParseMagnitudeOfDigits(s, 16, 16);
  }

  /** With the radix omitted, `0x` followed by a non-empty run of hex digits
      parses to the value of those digits: the prefix switches to radix 16. */
  lemma ParseIntOfPrefixedHex(h: string)
    requires |h| > 0
    requires forall i :: 0 <= i < |h| ==> IsDigitIn(h[i], 16)
    ensures ParseInt("0x" + h, 0) == Some(DigitsValue(h, 16) as int)
  {
    var s := "0x" + h;
    assert s[0] == '0' && s[1] == 'x' && s[2..] == h;
    LeadingZeroParse(s);
    PrefixedHexMagnitude(s, h);
  }

  /** A string starting with `0` has no white space or sign to skip. */
  lemma LeadingZeroParse(s: string)
    requires |s| > 0 && s[0] == '0'
    ensures ParseInt(s, 0) == ParseMagnitude(s, 0)
  {
    TrimStartKeeps(s);
  }

  /** After the `0x` prefix, a run of hex digits is read whole in radix 16. */
  lemma PrefixedHexMagnitude(s: string, h: string)
    requires |s| >= 2 && s[0] == '0' && s[1] == 'x' && s[2..] == h
    requires |h| > 0
    requires forall i :: 0 <= i < |h| ==> IsDigitIn(h[i], 16)
    ensures ParseMagnitude(s, 0) == Some(DigitsValue(h, 16) as int)
  {
    DigitPrefixOfDigits(h, 16);
    assert h[..|h|] == h;
  }

  /** A non-empty run of decimal digits parses, with the radix omitted, to its
      value. */
  lemma ParseIntOfDecimalDigits(s: string)
    requires |s| > 0
    requires forall i :: 0 <= i < |s| ==> IsDigitIn(s[i], 10)
    ensures ParseInt(s, 0) == Some(DigitsValue(s, 10) as int)
  {
    DigitIsNotSpaceOrSign(s[0], 10);
    TrimStartKeeps(s);
    ParseMagnitudeOfDigits(s, 0, 10);
  }

  /** A leading `-` negates the magnitude that follows it. */
  lemma NegativeSign(m: string, radix: nat, v: int)
    requires radix == 0 || 2 <= radix <= 36
    requires |m| > 0 && m[0] == '-' && TrimStart(m) == m
    requires ParseMagnitude(m[1..], radix) == Some(v)
    ensures ParseInt(m, radix) == Some(-v)
  {
    ParseIntOfTrimmed(m, radix);
    SignedNegative(m, radix, v);
  }

  lemma SignedNegative(m: string, radix: nat, v: int)
    requires radix == 0 || 2 <= radix <= 36
    requires |m| > 0 && m[0] == '-'
    requires ParseMagnitude(m[1..], radix) == Some(v)
    ensures ParseSigned(m, radix) == Some(-v)
  {
  }

  /** On a string with no leading white space `parseInt` goes straight to the
      sign. */
  lemma ParseIntOfTrimmed(m: string, radix: nat)
    requires radix == 0 || 2 <= radix <= 36
    requires TrimStart(m) == m
    ensures ParseInt(m, radix) == ParseSigned(m, radix)
  {
  }

  /** With nothing to read, `parseInt` gives `NaN`. */
  lemma ParseIntEmpty(radix: nat)
    ensures ParseInt("", radix) == None
  {
    if radix == 0 || 2 <= radix <= 36 {
      assert TrimStart("") == "";
      assert ParseMagnitude("", radix) == None;
      assert ParseSigned("", radix) == None;
    }
  }

  function DecimalDigit(d: nat): (c: char)
    requires d < 10
    ensures IsDigitIn(c, 10) && DigitValue(c) == d
  {
    ('0' as int + d) as char
  }

  /** The decimal rendering of `n` (what `String(n)` gives for a whole number). */
  function ToDecimal(n: nat): (s: string)
    ensures |s| > 0
    ensures forall i :: 0 <= i < |s| ==> IsDigitIn(s[i], 10)
  {
    if n < 10 then [DecimalDigit(n)] else ToDecimal(n / 10) + [DecimalDigit(n % 10)]
  }

  /** The decimal rendering of a whole number, with a `-` sign when negative. */
  function ToSignedDecimal(n: int): (s: string)
    ensures |s| > 0
  {
    if n >= 0 then ToDecimal(n) else "-" + ToDecimal(-n)
  }

  lemma {:induction false} DecimalValue(n: nat)
    ensures DigitsValue(ToDecimal(n), 10) == n
  {
    var s := ToDecimal(n);
    if n >= 10 {
      DecimalValue(n / 10);
      assert s[..|s| - 1] == ToDecimal(n / 10);
    }
  }

  /** `parseInt` reads back what decimal rendering writes, sign included. */
  lemma ParseIntDecimalRoundTrip(n: int)
    ensures ParseInt(ToSignedDecimal(n), 0) == Some(n)
  {
    var m: nat := if n >= 0 then n else -n;
    DecimalValue(m);
    if n >= 0 {
      ParseIntOfDecimalDigits(ToDecimal(m));
    } else {
      var t := ToSignedDecimal(n);
      TrimStartKeeps(t);
      assert t[1..] == ToDecimal(m);
      ParseMagnitudeOfDigits(ToDecimal(m), 0, 10);
      NegativeSign(t, 0, m);
    }
  }

  /** JavaScript `s.slice(start, end)` for non-negative indices: both ends are
      clamped to the length of the string. */
  function Slice(s: string, start: nat, end: nat): (t: string)
    ensures |t| == if start <= end then Min(end, |s|) - Min(start, |s|) else 0
    ensures forall i :: 0 <= i < |t| ==> t[i] == s[start + i]
  {
    var lo := Min(start, |s|);
    var hi := Min(end, |s|);
    if lo <= hi then s[lo..hi] else []
  }

  function Min(a: nat, b: nat): nat {
    if a <= b then a else b
  }
}

=== FILE: palette.dfy ===
/** The two-colour palette `generateColorsFromAddress` derives from the seed
    (src/app/api/route.tsx:13-19). */
module Palette {
  import opened Address
  import opened JsNumber

  /** A colour as the CSS function `hsl(hue, saturation%, lightness%)` names it. */
  datatype Color = Hsl(hue: int, saturation: nat, lightness: nat)

  datatype Colors = Colors(primary: Color, secondary: Color)

  /** Degrees the secondary hue sits beyond the primary one. */
  const HueShift: nat := 60

  /** The full-spectrum palette of a seed: primary hue `seed % 360` at 70%
      saturation and 50% lightness, secondary hue 60 degrees further round the
      colour wheel at 80% and 60%. Both `%` are JavaScript's, which on these
      non-negative operands is the mathematical modulus. */
  function ColorsFromSeed(seed: nat): (c: Colors)
    ensures 0 <= c.primary.hue < 360 && 0 <= c.secondary.hue < 360
    ensures (seed - c.primary.hue) % 360 == 0
    ensures (c.secondary.hue - c.primary.hue) % 360 == HueShift
    ensures c.primary.hue != c.secondary.hue
    ensures c.primary.saturation == 70 && c.primary.lightness == 50
    ensures c.secondary.saturation == 80 && c.secondary.lightness == 60
  {
    JsRemNatural(seed, 360);
    var hue := JsRem(seed, 360);
    JsRemNatural(hue + HueShift, 360);
    Colors(Hsl(hue, 70, 50), Hsl(JsRem(hue + HueShift, 360), 80, 60))
  }

  /** `generateColorsFromAddress`: the palette of the address's seed. */
  function ColorsFromAddress(a: string): (c: Colors)
    requires IsValidAddress(a)
    ensures c.primary.hue == AddressSeed(a) % 360
    ensures c.primary != c.secondary
  {
    ColorsFromSeed(AddressSeed(a))
  }

  /** The palette carries exactly the seed's residue modulo 360: two seeds get
      the same colours if and only if they agree modulo 360. */
  lemma PaletteDeterminedByHue(s1: nat, s2: nat)
    ensures ColorsFromSeed(s1) == ColorsFromSeed(s2) <==> s1 % 360 == s2 % 360
  {
    if ColorsFromSeed(s1) == ColorsFromSeed(s2) {
      assert ColorsFromSeed(s1).primary.hue == s1 % 360;
    }
  }
}

=== FILE: route.dfy ===
/** The request handler `GET` of src/app/api/route.tsx: the address check with
    its 400 reply, and the layer stack drawn on the 1000 x 1000 canvas. */
module Route {
  import opened Wrappers
  import opened Address
  import opened Palette
  import opened Waves
  import opened Stars
  import opened JsNumber

  const CanvasSize: nat := 1000
  const InvalidAddressMessage: string := "valid address is required"
  /** The dark blue page background, `hsl(220, 20%, 10%)`. */
  const BackgroundColor: Color := Hsl(220, 20, 10)
  const WaveOpacity: real := 0.6
  const StarOpacity: real := 0.9

  datatype GradientStop = GradientStop(offsetPercent: nat, color: Color, opacity: real)

  /** One drawn layer, in the order it is painted. */
  datatype Layer =
    | Background(fill: Color)
    | RadialGradientRect(centerXPercent: nat, centerYPercent: nat, radiusPercent: nat,
                         inner: GradientStop, outer: GradientStop)
    | WavePath(wave: Wave, stroke: Color, strokeWidth: nat, strokeOpacity: real)
    | StarPath(star: Star, scale: real, fillOpacity: real)

  datatype Scene = Scene(width: nat, height: nat, layers: seq<Layer>)

  /** The handler's reply: an image, or a JSON error body with its status. */
  datatype Response = Image(scene: Scene) | JsonError(status: nat, error: string)

  /** Wave `i` is stroked in the primary colour when `i` is even and in the
      secondary one when it is odd. */
  function WaveStroke(colors: Colors, i: nat): (c: Color)
    ensures c == colors.primary <==> i % 2 == 0 || colors.primary == colors.secondary
    ensures c == colors.primary || c == colors.secondary
  {
    if i % 2 == 0 then colors.primary else colors.secondary
  }

  /** Stroke width `10 + i % 5`, cycling through 10..14. */
  function StrokeWidth(i: nat): (w: nat)
    ensures 10 <= w <= 14
  {
    10 + i % 5
  }

  /** The full-canvas radial gradient: secondary at 40% opacity in the centre
      fading to primary at 10% at a radius of 70%. */
  function GradientLayer(colors: Colors): (l: Layer)
    ensures l.RadialGradientRect? && l.inner.offsetPercent == 0 && l.outer.offsetPercent == 100
    ensures l.inner.color == colors.secondary && l.outer.color == colors.primary
    ensures l.inner.opacity > l.outer.opacity
  {
    RadialGradientRect(50, 50, 70, GradientStop(0, colors.secondary, 0.4), GradientStop(100, colors.primary, 0.1))
  }

  /** One stroke per wave, in index order, half-transparent and 10 to 14 wide. */
  function WaveLayers(ws: seq<Wave>, colors: Colors): (ls: seq<Layer>)
    ensures |ls| == |ws|
    ensures forall i :: 0 <= i < |ls| ==>
              && ls[i].WavePath? && ls[i].wave == ws[i]
              && (ls[i].stroke == colors.primary || ls[i].stroke == colors.secondary)
              && 10 <= ls[i].strokeWidth <= 14 && ls[i].strokeOpacity == WaveOpacity
  {
    seq(|ws|, i requires 0 <= i < |ws| => WavePath(ws[i], WaveStroke(colors, i), StrokeWidth(i), WaveOpacity))
  }

  /** Each star is drawn at scale `size / 10`: a star sized 5 to 9 is drawn at
      half to nine tenths of the outline's size. */
  function StarLayers(stars: seq<Star>): (ls: seq<Layer>)
    ensures |ls| == |stars|
    ensures forall j :: 0 <= j < |ls| ==>
              && ls[j].StarPath? && ls[j].star == stars[j] && ls[j].fillOpacity == StarOpacity
              && (5 <= stars[j].size <= 9 ==> 0.5 <= ls[j].scale <= 0.9)
  {
    seq(|stars|, j requires 0 <= j < |stars| => StarPath(stars[j], stars[j].size as real / 10.0, StarOpacity))
  }

  /** Background, gradient, the waves in index order, then the stars. */
  function ComposeScene(colors: Colors, ws: seq<Wave>, stars: seq<Star>): (s: Scene)
    ensures |s.layers| == 2 + |ws| + |stars|
  {
    Scene(CanvasSize, CanvasSize,
          [Background(BackgroundColor), GradientLayer(colors)] + WaveLayers(ws, colors) + StarLayers(stars))
  }

  /** `GET`: reject a missing or malformed address with a 400, otherwise draw
      the scene from the address and the optional `data`. */
  function Handle(address: Option<string>, data: Option<string>): (r: Response)
    ensures r.JsonError? <==> !(address.Some? && IsValidAddress(address.value))
    ensures r.JsonError? ==> r.status == 400 && r.error == InvalidAddressMessage
    ensures r.Image? ==> r.scene.width == CanvasSize && r.scene.height == CanvasSize
  {
    if address.None? || !IsValidAddress(address.value) then
      JsonError(400, InvalidAddressMessage)
    else
      var a := address.value;
      Image(ComposeScene(ColorsFromAddress(a), WavePattern(AddressSeed(a)), GenerateStars(data)))
  }

  // ---------------------------------------------------------------------------
  // Layer order

  /** Paint order of a layer's kind. */
  function Rank(l: Layer): nat {
    match l
    case Background(_) => 0
    case RadialGradientRect(_, _, _, _, _) => 1
    case WavePath(_, _, _, _) => 2
    case StarPath(_, _, _) => 3
  }

  /** The stack is the background, then the gradient (secondary at 0.4 inside,
      primary at 0.1 outside), then wave `i` at position `2 + i`, then star
      `j` right after the last wave. */
  lemma LayerStack(colors: Colors, ws: seq<Wave>, stars: seq<Star>)
    ensures var ls := ComposeScene(colors, ws, stars).layers;
            && ls[0] == Background(BackgroundColor)
            && ls[1].RadialGradientRect?
            && ls[1].inner == GradientStop(0, colors.secondary, 0.4)
            && ls[1].outer == GradientStop(100, colors.primary, 0.1)
            && (forall i :: 0 <= i < |ws| ==> ls[2 + i].WavePath? && ls[2 + i].wave == ws[i])
            && (forall j :: 0 <= j < |stars| ==> ls[2 + |ws| + j].StarPath? && ls[2 + |ws| + j].star == stars[j])
  {
    var ls := ComposeScene(colors, ws, stars).layers;
    var wl, sl := WaveLayers(ws, colors), StarLayers(stars);
    assert ls == [Background(BackgroundColor), GradientLayer(colors)] + wl + sl;
    forall i | 0 <= i < |ws|
      ensures ls[2 + i] == wl[i]
    {
    }
    forall j | 0 <= j < |stars|
      ensures ls[2 + |ws| + j] == sl[j]
    {
    }
  }

  /** Layers are painted in blocks: no layer of a lower kind ever comes after
      one of a higher kind, so every star is on top of every wave, and both
      on top of the gradient and background; the first two layers are the only
      background and the only gradient. */
  lemma LayersPaintedInOrder(colors: Colors, ws: seq<Wave>, stars: seq<Star>)
    ensures var ls := ComposeScene(colors, ws, stars).layers;
            && (forall p, q :: 0 <= p < q < |ls| ==> Rank(ls[p]) <= Rank(ls[q]))
            && (forall p :: 0 <= p < |ls| ==> (Rank(ls[p]) == 0 <==> p == 0) && (Rank(ls[p]) == 1 <==> p == 1))
  {
    var ls := ComposeScene(colors, ws, stars).layers;
    var n := 2 + |ws|;
    forall p | 0 <= p < |ls|
      ensures Rank(ls[p]) == if p == 0 then 0 else if p == 1 then 1 else if p < n then 2 else 3
    {
      if 2 <= p < n {
        assert ls[p] == WaveLayers(ws, colors)[p - 2];
      } else if n <= p {
        assert ls[p] == StarLayers(stars)[p - n];
      }
    }
  }

  // ---------------------------------------------------------------------------
  // Wave strokes

  /** With two distinct palette colours, wave `i` is stroked primary exactly
      when `i` is even. */
  lemma WaveStrokesAlternate(colors: Colors, ws: seq<Wave>, stars: seq<Star>)
    requires colors.primary != colors.secondary
    ensures var ls := ComposeScene(colors, ws, stars).layers;
            forall i :: 0 <= i < |ws| ==> ls[2 + i].WavePath? && (ls[2 + i].stroke == colors.primary <==> i % 2 == 0)
  {
    var ls := ComposeScene(colors, ws, stars).layers;
    forall i | 0 <= i < |ws|
      ensures ls[2 + i].WavePath? && ls[2 + i].stroke == WaveStroke(colors, i)
    {
      WaveLayerAt(colors, ws, stars, i);
    }
  }

  /** Neighbouring waves never share a stroke colour. */
  lemma NeighbouringStrokesDiffer(colors: Colors, ws: seq<Wave>, stars: seq<Star>)
    requires colors.primary != colors.secondary
    ensures var ls := ComposeScene(colors, ws, stars).layers;
            forall p, q :: 2 <= p && q == p + 1 && q < 2 + |ws| ==>
              ls[p].WavePath? && ls[q].WavePath? && ls[p].stroke != ls[q].stroke
  {
    var ls := ComposeScene(colors, ws, stars).layers;
    forall p, q | 2 <= p && q == p + 1 && q < 2 + |ws|
      ensures ls[p].WavePath? && ls[q].WavePath? && ls[p].stroke != ls[q].stroke
    {
      WaveLayerAt(colors, ws, stars, p - 2);
      WaveLayerAt(colors, ws, stars, q - 2);
    }
  }

  lemma WaveLayerAt(colors: Colors, ws: seq<Wave>, stars: seq<Star>, i: nat)
    requires i < |ws|
    ensures ComposeScene(colors, ws, stars).layers[2 + i]
            == WavePath(ws[i], WaveStroke(colors, i), StrokeWidth(i), WaveOpacity)
  {
    assert ComposeScene(colors, ws, stars).layers[2 + i] == WaveLayers(ws, colors)[i];
  }

  /** The set of stroke widths of a scene's waves. */
  function StrokeWidths(ls: seq<Layer>): set<nat> {
    set p | 0 <= p < |ls| && ls[p].WavePath? :: ls[p].strokeWidth
  }

  /** Wave widths are exactly 10 to 14: with at least five waves every width
      in that band is used and no other is. */
  lemma StrokeWidthsExactly(colors: Colors, ws: seq<Wave>, stars: seq<Star>)
    requires |ws| >= 5
    ensures StrokeWidths(ComposeScene(colors, ws, stars).layers) == {10, 11, 12, 13, 14}
  {
    var ls := ComposeScene(colors, ws, stars).layers;
    var n := 2 + |ws|;
    LayersPaintedInOrder(colors, ws, stars);
    forall p | 0 <= p < |ls| && ls[p].WavePath?
      ensures 10 <= ls[p].strokeWidth <= 14
    {
      assert 2 <= p < n;
      assert ls[p] == WaveLayers(ws, colors)[p - 2];
    }
    forall w | w in {10, 11, 12, 13, 14}
      ensures w in StrokeWidths(ls)
    {
      assert ls[2 + (w - 10)] == WaveLayers(ws, colors)[w - 10];
    }
  }

  /** What every successful reply draws: the palette of the address with two
      distinct colours, at least 18 waves, and the scene built from them. */
  lemma ValidAddressScene(a: string, data: Option<string>)
    requires IsValidAddress(a)
    ensures Handle(Some(a), data).Image?
    ensures var colors, ws := ColorsFromAddress(a), WavePattern(AddressSeed(a));
            && colors.primary != colors.secondary
            && 18 <= |ws| <= 21
            && Handle(Some(a), data).scene == ComposeScene(colors, ws, GenerateStars(data))
  {
  }

  // ---------------------------------------------------------------------------
  // What `data` changes

  /** `data` only feeds the stars: for one address every choice of `data`
      gives the same background, gradient and waves, and a valid address
      answers with an image whatever `data` is. */
  lemma DataOnlyMovesStars(a: string, d1: Option<string>, d2: Option<string>)
    requires IsValidAddress(a)
    ensures Handle(Some(a), d1).Image? && Handle(Some(a), d2).Image?
    ensures var n := 2 + WaveCount(AddressSeed(a));
            Handle(Some(a), d1).scene.layers[..n] == Handle(Some(a), d2).scene.layers[..n]
  {
    var colors, ws := ColorsFromAddress(a), WavePattern(AddressSeed(a));
    var pre := [Background(BackgroundColor), GradientLayer(colors)] + WaveLayers(ws, colors);
    var l1 := Handle(Some(a), d1).scene.layers;
    var l2 := Handle(Some(a), d2).scene.layers;
    assert l1[..|pre|] == pre;
    assert l2[..|pre|] == pre;
  }

  // ---------------------------------------------------------------------------
  // A worked example

  lemma ExampleDigitsValue(d8: string)
    requires d8 == "12345678"
    ensures forall i :: 0 <= i < |d8| ==> IsDigitIn(d8[i], 16)
    ensures DigitsValue(d8, 16) == 0x12345678
  {
    var d1 := ['1'];
    var d2 := d1 + ['2'];
    var d3 := d2 + ['3'];
    var d4 := d3 + ['4'];
    var d5 := d4 + ['5'];
    var d6 := d5 + ['6'];
    var d7 := d6 + ['7'];
    assert d8 == d7 + ['8'];
    assert DigitsValue(d2, 16) == 0x12 by { assert d2[..1] == d1; }
    assert DigitsValue(d3, 16) == 0x123 by { assert d3[..2] == d2; }
    assert DigitsValue(d4, 16) == 0x1234 by { assert d4[..3] == d3; }
    assert DigitsValue(d5, 16) == 0x12345 by { assert d5[..4] == d4; }
    assert DigitsValue(d6, 16) == 0x123456 by { assert d6[..5] == d5; }
    assert DigitsValue(d7, 16) == 0x1234567 by { assert d7[..6] == d6; }
    assert d8[..7] == d7;
  }

  /** Every valid address beginning 0x12345678 (the address
      0x1234567890123456789012345678901234567890, say) has seed 0x12345678 =
      305419896, primary hue 216, secondary hue 276 and 18 waves. */
  lemma ExampleAddress(a: string)
    requires IsValidAddress(a) && a[2..10] == "12345678"
    ensures AddressSeed(a) == 305419896
    ensures ColorsFromAddress(a).primary == Hsl(216, 70, 50)
    ensures ColorsFromAddress(a).secondary == Hsl(276, 80, 60)
    ensures WaveCount(AddressSeed(a)) == 18
  {
    ExampleDigitsValue(a[2..10]);
    var seed := AddressSeed(a);
    assert ColorsFromAddress(a) == ColorsFromSeed(seed);
    ExamplePalette(seed);
  }

  lemma ExamplePalette(seed: nat)
    requires seed == 305419896
    ensures ColorsFromSeed(seed) == Colors(Hsl(216, 70, 50), Hsl(276, 80, 60))
    ensures WaveCount(seed) == 18
  {
  }
}

=== FILE: stars.dfy ===
/** The star field of `generateStars` (src/app/api/route.tsx:42-56): the
    optional `data` query string sets both how many stars are drawn and the
    seed that places and colours them. */
module Stars {
  import opened Wrappers
  import opened JsNumber
  import opened Palette
  import opened Address

  /** A star outline translated to (x, y), scaled by size / 10 and filled
      with `color`. */
  datatype Star = Star(x: int, y: int, size: int, color: Color)

  /** Stars drawn when `data` gives no number. */
  const DefaultStarCount: nat := 5

  /** JavaScript truthiness of the optional `data` string: present and not
      empty. */
  predicate IsTruthy(data: Option<string>) {
    data.Some? && |data.value| > 0
  }

  /** `data.slice(2, 10)` begins, once `parseInt` has skipped its leading
      white space, with a minus sign: the only way to a negative star seed. */
  predicate SlicedNegative(data: Option<string>) {
    && IsTruthy(data)
    && var t := TrimStart(Slice(data.value, 2, 10));
       |t| > 0 && t[0] == '-'
  }

  /** The star seed as the source computes it,
      `data ? parseInt(data.slice(2, 10), 16) : 0`, with `None` for `NaN`.
      The slice holds at most eight characters, so the seed is below 16^8,
      and when negative it spends one of them on the sign, so it is above
      -16^7. */
  function StarSeedAsWritten(data: Option<string>): (seed: Option<int>)
    ensures !IsTruthy(data) ==> seed == Some(0)
    ensures seed.Some? ==> -0x1000_0000 < seed.value < 0x1_0000_0000
    ensures seed.Some? && seed.value < 0 ==> SlicedNegative(data)
  {
    if IsTruthy(data) then
      var sl := Slice(data.value, 2, 10);
      SliceSeedBound(sl);
      ParseInt(sl, 16)
    else
      Some(0)
  }

  /** The radix-16 reading of at most eight characters. */
  lemma SliceSeedBound(sl: string)
    requires |sl| <= 8
    ensures ParseInt(sl, 16).Some? ==> -0x1000_0000 < ParseInt(sl, 16).value < 0x1_0000_0000
  {
    ParseIntBound(sl, 16);
    PowMonotone(16, |sl|, 8);
    assert Pow(16, 8) == 0x1_0000_0000;
    if |sl| > 0 {
      PowMonotone(16, |sl| - 1, 7);
      assert Pow(16, 7) == 0x1000_0000;
    }
  }

  /** The star seed with the fallback to 0 also applied when the slice holds
      no hex digit, where the source computes `NaN`. It is a number within
      (-16^7, 16^8), and negative only when the slice starts with `-`. */
  function StarSeed(data: Option<string>): (seed: int)
    ensures StarSeedAsWritten(data).Some? ==> seed == StarSeedAsWritten(data).value
    ensures StarSeedAsWritten(data).None? ==> seed == 0
    ensures -0x1000_0000 < seed < 0x1_0000_0000
    ensures seed < 0 ==> SlicedNegative(data)
  {
    StarSeedAsWritten(data).GetOr(0)
  }

  /** `data && !isNaN(parseInt(data)) ? parseInt(data) : 5`: the number
      `data` starts with, or five when it is absent, empty or not a number. */
  function StarCount(data: Option<string>): (count: int)
    ensures count == DefaultStarCount || (IsTruthy(data) && ParseInt(data.value, 0) == Some(count))
    ensures IsTruthy(data) && ParseInt(data.value, 0).Some? ==> count == ParseInt(data.value, 0).value
    ensures !IsTruthy(data) || ParseInt(data.value, 0).None? ==> count == DefaultStarCount
  {
    if IsTruthy(data) && ParseInt(data.value, 0).Some? then ParseInt(data.value, 0).value
    else DefaultStarCount
  }

  /** Star `i` of the field seeded by `seed`, with JavaScript's truncating
      `%`. */
  function StarAt(seed: int, i: nat): (s: Star)
    ensures seed >= 0 ==> 50 <= s.x <= 949 && 50 <= s.y <= 949
    ensures seed >= 0 ==> 5 <= s.size <= 9
    ensures seed >= 0 ==> 0 <= s.color.hue < 360
    ensures s.color.saturation == 80 && s.color.lightness == 70
  {
    Star(50 + JsRem(seed + i * 97, 900),
         50 + JsRem(seed + i * 53, 900),
         5 + JsRem(seed + i, 5),
         Hsl(JsRem(seed + i * 137, 360), 80, 70))
  }

  /** The first `n` stars of the field seeded by `seed`, in index order. */
  function StarField(seed: int, n: nat): (stars: seq<Star>)
    ensures |stars| == n
  {
    seq(n, i requires 0 <= i < n => StarAt(seed, i))
  }

  /** `generateStars`: the loop `for (i = 0; i < count; i++)` runs
      max(count, 0) times. */
  function GenerateStars(data: Option<string>): (stars: seq<Star>)
    ensures StarCount(data) >= 0 ==> |stars| == StarCount(data)
    ensures StarCount(data) < 0 ==> |stars| == 0
  {
    var count := StarCount(data);
    StarField(StarSeed(data), if count > 0 then count else 0)
  }

  /** The set of sizes drawn. */
  function Sizes(stars: seq<Star>): set<int> {
    set i | 0 <= i < |stars| :: stars[i].size
  }

  // ---------------------------------------------------------------------------

  /** Without `data` (absent or empty) five stars are drawn from seed 0, the
      first at (50, 50) in size 5 and hue 0, each next one 97 further right
      and 53 further down. */
  lemma StarsWithoutData(data: Option<string>)
    requires !IsTruthy(data)
    ensures |GenerateStars(data)| == DefaultStarCount
    ensures GenerateStars(data)[0] == Star(50, 50, 5, Hsl(0, 80, 70))
    ensures forall i :: 0 <= i < 5 ==> GenerateStars(data)[i].x == 50 + 97 * i && GenerateStars(data)[i].y == 50 + 53 * i
  {
  }

  /** `data` written as a whole number, in decimal with an optional sign,
      draws that many stars, and none when it is negative. */
  lemma StarCountFromNumber(n: int)
    ensures |GenerateStars(Some(ToSignedDecimal(n)))| == if n > 0 then n else 0
  {
    ParseIntDecimalRoundTrip(n);
  }

  /** A hex payload `0x…` of `w` digits draws as many stars as its digits
      say: rendering any `n < 16^w` that way and parsing it back gives `n`. */
  lemma StarCountFromHex(n: nat, w: nat)
    requires 0 < w && n < Pow(16, w)
    ensures |GenerateStars(Some("0x" + ToHex(n, w)))| == n
  {
    HexRoundTrip(n, w);
    ParseIntOfPrefixedHex(ToHex(n, w));
  }

  /** Hex digits in positions 2 to 9 of `data` seed the stars with their
      value, read exactly as the address seed is read. */
  lemma StarSeedOfHexDigits(data: string)
    requires |data| >= 10 && forall i :: 2 <= i < 10 ==> IsHexDigit(data[i])
    ensures forall i :: 0 <= i < 8 ==> IsDigitIn(data[2..10][i], 16)
    ensures StarSeed(Some(data)) == DigitsValue(data[2..10], 16) as int
  {
    var sl := data[2..10];
    AllRadix16Digits(sl);
    assert StarSeedAsWritten(Some(data)) == ParseInt(sl, 16) by {
      assert Slice(data, 2, 10) == sl;
    }
    ParseIntOfHexDigits(sl);
  }

  /** Given an address as `data`, the stars are seeded by the address seed. */
  lemma StarSeedOfAddress(a: string)
    requires IsValidAddress(a)
    ensures StarSeed(Some(a)) == AddressSeed(a)
  {
    StarSeedOfHexDigits(a);
  }

  /** With a non-negative seed every star lies inside [50, 949] on both axes,
      is sized 5 to 9 and coloured hsl(hue, 80%, 70%) with hue in [0, 360). */
  lemma StarsOnCanvas(seed: int, n: nat)
    requires seed >= 0
    ensures forall s :: s in StarField(seed, n) ==>
              && 50 <= s.x <= 949 && 50 <= s.y <= 949
              && 5 <= s.size <= 9
              && 0 <= s.color.hue < 360 && s.color.saturation == 80 && s.color.lightness == 70
  {
  }

  /** Every star the handler draws for `data` lies on the canvas inside the
      50-pixel margin, sized 5 to 9, unless `data.slice(2, 10)` starts with a
      minus sign. */
  lemma DataStarsOnCanvas(data: Option<string>)
    ensures !SlicedNegative(data) ==>
              forall s :: s in GenerateStars(data) ==> 50 <= s.x <= 949 && 50 <= s.y <= 949 && 5 <= s.size <= 9
  {
    if !SlicedNegative(data) {
      var seed := StarSeed(data);
      var count := StarCount(data);
      var n := if count > 0 then count else 0;
      assert GenerateStars(data) == StarField(seed, n);
      StarsOnCanvas(seed, n);
    }
  }

  /** The sizes drawn are exactly 5 to 9: once five stars are drawn every one
      of those sizes occurs, and no other (10 in particular) ever does. */
  lemma StarSizesExactly(seed: int, n: nat)
    requires seed >= 0 && n >= 5
    ensures Sizes(StarField(seed, n)) == {5, 6, 7, 8, 9}
  {
    var stars := StarField(seed, n);
    forall v | v in {5, 6, 7, 8, 9}
      ensures v in Sizes(stars)
    {
      var i := (v - 5 - seed % 5 + 5) % 5;
      SizeResidue(seed, v - 5);
      JsRemNatural(seed + i, 5);
      assert stars[i].size == v;
    }
  }

  /** Star `(k - seed % 5 + 5) % 5`, one of the first five, has size `5 + k`. */
  lemma SizeResidue(seed: nat, k: nat)
    requires k < 5
    ensures (seed + (k - seed % 5 + 5) % 5) % 5 == k
  {
  }

  /** The canvas bounds need the seed to be non-negative: `data = "0x-1"`
      parses to seed -1 (and, having no digit after its `0x`, to the default
      count) and puts the first star at x = 49. */
  lemma NegativeSeedLeavesCanvas()
    ensures StarSeed(Some("0x-1")) == -1
    ensures StarCount(Some("0x-1")) == DefaultStarCount
    ensures GenerateStars(Some("0x-1"))[0].x == 49
  {
    assert StarSeed(Some("0x-1")) == -1 by {
      assert Slice("0x-1", 2, 10) == "-1";
      ParseMinusOne();
    }
    assert StarCount(Some("0x-1")) == DefaultStarCount by {
      ParsePrefixWithoutDigits();
    }
    JsRemOdd(1, 900);
    assert StarAt(-1, 0).x == 49;
  }

  lemma ParseMinusOne()
    ensures ParseInt("-1", 16) == Some(-1)
  {
    var sl := "-1";
    assert sl[1..] == "1";
    TrimStartKeeps(sl);
    ParseMagnitudeOfDigits("1", 16, 16);
    NegativeSign(sl, 16, 1);
  }

  lemma ParsePrefixWithoutDigits()
    ensures ParseInt("0x-1", 0) == None
  {
    var data := "0x-1";
    TrimStartKeeps(data);
    assert data[2..] == "-1";
    assert DigitPrefixLength("-1", 16) == 0;
    assert ParseMagnitude(data, 0) == None;
  }

  /** As written, a plain decimal `data` such as "10" -- the star count the
      source's own comment documents -- leaves `data.slice(2, 10)` empty, so
      the seed is `NaN` while ten stars are still drawn from it. */
  lemma NumericDataGivesNaNSeed()
    ensures StarSeedAsWritten(Some("10")) == None
    ensures StarCount(Some("10")) == 10
  {
    assert StarSeedAsWritten(Some("10")) == None by {
      assert Slice("10", 2, 10) == "";
      ParseIntEmpty(16);
    }
    assert StarCount(Some("10")) == 10 by {
      ParseIntDecimalRoundTrip(10);
      assert ToSignedDecimal(10) == "10";
    }
  }

  /** With the fallback, the same "10" draws ten stars, all on the canvas. */
  lemma NumericDataStarsOnCanvas()
    ensures StarSeed(Some("10")) == 0
    ensures |GenerateStars(Some("10"))| == 10
    ensures forall s :: s in GenerateStars(Some("10")) ==> 50 <= s.x <= 949 && 50 <= s.y <= 949
  {
    NumericDataGivesNaNSeed();
    StarsOnCanvas(0, 10);
  }
}

=== FILE: waves.dfy ===
/** The horizontal wave field of `generateWavePattern`
    (src/app/api/route.tsx:22-39): between 18 and 21 cubic Bezier strokes
    from (0, y) to (1000, y), spread evenly from y = 50 to y = 950. */
module Waves {
  import opened JsNumber

  /** One stroke `M0,y1 C cx1,cy1 cx2,cy2 1000,y2`; the vertical fields are
      exact rationals, since `i * 900 / (count - 1)` need not be whole. */
  datatype Wave = Wave(y1: real, y2: real, cx1: int, cy1: real, cx2: int, cy2: real)

  /** `18 + seed % 4`, JavaScript's `%` on a non-negative seed. */
  function WaveCount(seed: nat): (n: nat)
    ensures 18 <= n <= 21
    ensures n % 4 == (seed + 2) % 4
  {
    JsRemNatural(seed, 4);
    18 + JsRem(seed, 4)
  }

  /** Vertical position of wave `i` of `count`: `50 + i * 900 / (count - 1)`.
      The divisor is positive because every count is at least 18. */
  function WaveY(i: nat, count: nat): (y: real)
    requires count >= 2
    ensures i < count ==> 50.0 <= y <= 950.0
  {
    FractionOfSpan(i, count - 1);
    50.0 + (i * 900) as real / (count - 1) as real
  }

  /** `(seed + i * 41) % 300`, the per-wave perturbation of the control points. */
  function WaveOffset(seed: nat, i: nat): (offset: nat)
    ensures offset < 300
  {
    JsRemNatural(seed + i * 41, 300);
    JsRem(seed + i * 41, 300)
  }

  /** Wave `i` of `count`: horizontal at its ends, with the two control points
      pulled to opposite sides of its midline by the same amount. */
  function WaveAt(seed: nat, i: nat, count: nat): (w: Wave)
    requires count >= 2
    ensures w.y1 == w.y2 == WaveY(i, count)
    ensures 150 <= w.cx1 <= 349 && 661 <= w.cx2 <= 840
    ensures w.cy1 - w.y1 == -(w.cy2 - w.y1)
    ensures -75.0 <= w.cy1 - w.y1 <= 74.0
  {
    var y := WaveY(i, count);
    var offset := WaveOffset(seed, i);
    Wave(y, y,
         250 + offset % 200 - 100, y + (offset % 150) as real - 75.0,
         750 - offset % 180 + 90, y - (offset % 150) as real + 75.0)
  }

  /** `generateWavePattern`: the waves in index order. */
  function WavePattern(seed: nat): (ws: seq<Wave>)
    ensures |ws| == WaveCount(seed)
    ensures forall i :: 0 <= i < |ws| ==> ws[i].y1 == ws[i].y2
    ensures forall i :: 0 <= i < |ws| ==> 50.0 <= ws[i].y1 <= 950.0
  {
    var count := WaveCount(seed);
    seq(count, i requires 0 <= i < count => WaveAt(seed, i, count))
  }

  // ---------------------------------------------------------------------------
  // Exact rational arithmetic the placement proofs need

  lemma DivMonotone(a: real, b: real, d: real)
    requires d > 0.0
    ensures a <= b ==> a / d <= b / d
  {
  }

  /** The share `i / n` of the 900-pixel span, for `i` up to `n`, is itself
      within the span. */
  lemma FractionOfSpan(i: nat, n: nat)
    requires n > 0
    ensures i <= n ==> 0.0 <= (i * 900) as real / n as real <= 900.0
  {
    DivMonotone(0.0, (i * 900) as real, n as real);
    DivMonotone((i * 900) as real, (n * 900) as real, n as real);
    assert (n * 900) as real / n as real == 900.0;
  }

  lemma DivStrictMonotone(a: real, b: real, d: real)
    requires d > 0.0 && a < b
    ensures a / d < b / d
  {
  }

  lemma DivSum(a: real, b: real, d: real)
    requires d > 0.0
    ensures (a + b) / d == a / d + b / d
  {
  }

  // ---------------------------------------------------------------------------
  // Placement

  /** The first wave sits at y = 50 and the last at y = 950. */
  lemma WaveEndpoints(seed: nat)
    ensures WavePattern(seed)[0].y1 == 50.0
    ensures WavePattern(seed)[|WavePattern(seed)| - 1].y1 == 950.0
  {
    var n := WaveCount(seed);
    assert ((n - 1) * 900) as real / (n - 1) as real == 900.0;
  }

  /** Waves are drawn strictly top to bottom: a later index is lower down. */
  lemma WavesStrictlyDescend(seed: nat)
    ensures forall i, j :: 0 <= i < j < |WavePattern(seed)| ==>
              WavePattern(seed)[i].y1 < WavePattern(seed)[j].y1
  {
    var ws := WavePattern(seed);
    var n := |ws|;
    forall i, j | 0 <= i < j < n
      ensures ws[i].y1 < ws[j].y1
    {
      DivStrictMonotone((i * 900) as real, (j * 900) as real, (n - 1) as real);
    }
  }

  /** Consecutive waves are the same distance apart, 900 / (count - 1). */
  lemma WavesEvenlySpaced(seed: nat)
    ensures forall i :: 0 <= i < |WavePattern(seed)| - 1 ==>
              WavePattern(seed)[i + 1].y1 - WavePattern(seed)[i].y1 == 900.0 / (|WavePattern(seed)| - 1) as real
  {
    var ws := WavePattern(seed);
    var n := |ws|;
    forall i | 0 <= i < n - 1
      ensures ws[i + 1].y1 - ws[i].y1 == 900.0 / (n - 1) as real
    {
      DivSum((i * 900) as real, 900.0, (n - 1) as real);
    }
  }

  /** Control points stay inside their bands and mirror each other about the
      wave's midline: cx1 in [150, 349], cx2 in [661, 840], and
      cy1 - y == y - cy2 with |cy1 - y| <= 75. */
  lemma WaveControlPoints(seed: nat)
    ensures forall i :: 0 <= i < |WavePattern(seed)| ==>
              var w := WavePattern(seed)[i];
              && 150 <= w.cx1 <= 349 && 661 <= w.cx2 <= 840
              && w.cy1 - w.y1 == w.y1 - w.cy2
              && -75.0 <= w.cy1 - w.y1 <= 75.0
  {
  }
}

=== FILE: wrappers.dfy ===
/** The optional-value wrapper used throughout the model.  `None` stands for a
    JavaScript value that is absent (`undefined`) or not a number (`NaN`). */
module Wrappers {

  datatype Option<+T> = None | Some(value: T) {

    /** Returns the wrapped value, or `default` when there is none. */
    function GetOr(default: T): (r: T)
      ensures Some? ==> r == value
      ensures None? ==> r == default
    {
      match this
      case Some(v) => v
      case None => default
    }
  }
}
